=== FILE: README.md ===
# Version notifier: a Dafny model

This project models the version notifier of a small Next.js application. It is
one process-wide component (`versionNotifier` in `pages/api/hello.ts`) that
polls the site's own `version.txt` and fans each result out to every connected
browser as a Server-Sent Events frame. All clients share a single poll loop.
The first subscriber starts that loop and the last one to leave stops it. A
failed fetch is retried after half the normal interval.

The model is functional. A notifier is an immutable `Notifier.State`:

- the host recorded by `setHost`;
- the set of subscribed writers;
- the `timeout` slot;
- a count of stray timers;
- the URLs fetched so far;
- the frames written to each writer.

Every operation of the source is a pure transition on that state.

- `wrappers.dfy`: `Option`.
- `sse.dfy` (module `Sse`): the frame the notifier writes. It also holds a
  reader of the event-stream format as the HTML Living Standard defines it in
  section 9.2.6, "Interpreting an event stream". The reader is an
  independent statement of what a browser receives, and the lemmas compare it
  with the frames.
- `notifier.dfy` (module `Notifier`): `setHost`, `subscribe`, `unsubscribe`,
  `start` (one poll step), `stop`, and the firing of a scheduled timer.
- `handler.dfy` (module `Handler`): the request handler's order of calls
  (`setHost`, then `subscribe`), client disconnection, traces of such events,
  and the invariant those traces keep.

Timers are modelled through what `stop` can reach. `timeout` holds the handle
of the last timer scheduled. `start` overwrites that handle without clearing
the timer it pointed to, so that timer lives on as a *stray* and no later
`stop` can cancel it. Strays arise only when `start` runs while a timer is
pending. From a notifier without strays, the one way to do that is to
subscribe again the writer that is already the only subscriber
(`Notifier.ResubscribeLeavesStrayTimer`). Once one stray exists, it fires and
re-arms `timeout` with no writers, and the next first subscriber adds another
(`Notifier.StrayBreedsStray`). The handler never re-subscribes a writer,
because it creates a new writer per request. In the model, where a poll step
is atomic, the notifier therefore stays `Handler.Steady` along the handler's
traces: no strays, a pending timer exactly while writers are subscribed, and a
recorded host whenever anyone is subscribed. In the program a poll awaits its
fetch, and that await opens another way to a first stray timer, which the
model does not contain (see "## Left out"). From there,
`Notifier.StrayBreedsStray` applies.

In three places the code behaves differently from a more careful design of the
same component. The model follows the code:

- The code never reads the HTTP status. Any resolved fetch counts as success:
  a 500 response's body is delivered like a version, and the next poll comes
  after the full 5000 ms (`Notifier.StatusIgnored`, `Notifier.BackoffOnThrow`).
- `start` has no "already running" guard and the notifier has no running flag.
  `stop` only clears the timer in `timeout`.
- Writes to a writer are not guarded against failure. The model treats every
  write as delivered.

## Model

| member | source | states |
|---|---|---|
| Notifier.Create | pages/api/hello.ts:15-23 | a new notifier has no host, no writers, no live timer, no fetches and no output |
| Notifier.SetHost | pages/api/hello.ts:51-54 | with a non-empty host recorded, nothing changes; otherwise the argument becomes the host and nothing else changes |
| Notifier.SetHostFirstWins | pages/api/hello.ts:51-54 | once a non-empty host is recorded, any later sequence of `setHost` calls leaves the notifier unchanged |
| Notifier.SetHostTwice | pages/api/hello.ts:51-54 | two calls keep the first value, unless the first was empty; an empty host counts as unset and the second call replaces it |
| Notifier.SetHostIdempotent | pages/api/hello.ts:51-54 | repeating `setHost` with the same value is the same as calling it once |
| Notifier.VersionUrl | pages/api/hello.ts:28 | the fetched URL is the protocol, `://`, the host, and `/version.txt`; an unset host is printed as `undefined` |
| Notifier.FanOut | pages/api/hello.ts:32-34 | every subscribed writer gets the frame appended exactly once, other writers' output is unchanged, and nothing else changes |
| Notifier.Schedule | pages/api/hello.ts:36-40 | `setTimeout` puts the new delay in `timeout` and adds one live timer |
| Notifier.Start | pages/api/hello.ts:25-42 | one fetch of `protocol://host/version.txt` is issued; a resolved fetch appends the body's frame to exactly the subscribed writers and waits 5000 ms; a thrown fetch writes nothing and waits 2500 ms; host and writers are unchanged |
| Notifier.Stop | pages/api/hello.ts:44-47 | `timeout` is cleared, one live timer fewer if one was pending, and stray timers survive |
| Notifier.Subscribe | pages/api/hello.ts:55-59 | the writer is added; the notifier polls at once exactly when the set held at most that writer before, and otherwise nothing else changes |
| Notifier.Unsubscribe | pages/api/hello.ts:60-64 | the writer is removed; `timeout` is cleared when the set becomes empty and untouched otherwise |
| Notifier.Fire | pages/api/hello.ts:36-40 | a firing timer runs one poll of the recorded host's `version.txt` and keeps the number of live timers; a resolved fetch appends the body's frame to exactly the subscribed writers and rearms at 5000 ms; a thrown fetch writes nothing and rearms at 2500 ms; with no live timer nothing happens |
| Notifier.SizeOneAfterAdd | pages/api/hello.ts:56-58 | the set has size 1 after adding `w` exactly when it held nothing but `w` before |
| Notifier.SubscribeKeepsWriters | pages/api/hello.ts:55-56 | after `subscribe(w)`, `w` is present and no writer was removed |
| Notifier.SubscribePollsIffFirst | pages/api/hello.ts:56-58 | `subscribe` fetches exactly once when the set's size after insertion is 1, and otherwise fetches nothing, writes nothing and leaves the timer alone |
| Notifier.ResubscribeLeavesStrayTimer | pages/api/hello.ts:44-63 | re-subscribing the sole writer polls again; unsubscribing it afterwards leaves no writers but a live timer, so polling goes on |
| Notifier.StrayBreedsStray | pages/api/hello.ts:36-58 | with no writers, an idle slot and a stray timer, the stray fires and re-arms `timeout`; a new first subscriber then runs `start` over it, so one more timer is live and the stray count is back where it was |
| Notifier.UnsubscribeOthersUnchanged | pages/api/hello.ts:60-63 | `w` is absent afterwards and every other writer's membership is unchanged; removing an absent writer from a non-empty set changes nothing |
| Notifier.FanOutIdentical | pages/api/hello.ts:32-34 | after a resolved poll, any two subscribed writers have received the same last frame, the frame of the fetched body |
| Notifier.StatusIgnored | pages/api/hello.ts:28-36 | the poll's result does not depend on the HTTP status of a resolved fetch |
| Notifier.BackoffOnThrow | pages/api/hello.ts:36-40 | a thrown fetch retries after 2500 ms and writes nothing; a resolved fetch with status 500 still writes its body and waits 5000 ms |
| Notifier.StoppedStaysStopped | pages/api/hello.ts:44-47 | with no live timer, any number of timer events changes nothing: no fetch and no output |
| Notifier.ClientReadsPoll | pages/api/hello.ts:32-34 | for a fetched body with no CR or LF, a client reading a subscribed writer's stream gets exactly one new `version` event from a resolved poll, carrying the body less one leading space |
| Notifier.ClientReadsEveryPoll | pages/api/hello.ts:32-34 | for a writer that has been sent only frames, and a body with no CR or LF, a client that starts idle or has read at least one frame gets exactly one new `version` event from a resolved poll, carrying the body less one leading space |
| Sse.ReadFrame | pages/api/hello.ts:33 | for a version with no CR or LF, an idle reader reading its frame dispatches one event: type `version`, the version as data less a leading space, and an empty last event ID; it also adopts a 500 ms retry and is idle again |
| Sse.Frame | pages/api/hello.ts:33 | the frame is the fixed `id:`/`event:version`/`data:` prefix, the version inserted unescaped, and the fixed line break, `retry:500` line and blank line; what a client reads from it is `Sse.ReadFrame` |
| Sse.IdleAfterAnyFrame | pages/api/hello.ts:33 | every frame ends in a blank line, so a reader is idle after it whatever state it started in and whatever the version holds |
| Sse.IdleAfterFrames | pages/api/hello.ts:32-34 | after at least one frame, a reader is idle whatever state it started in |
| Sse.ReadFrameExact | pages/api/hello.ts:33 | for a version that fits on one line, the client sees exactly the written version if and only if the version does not start with a space |
| Sse.LineBreakTruncates | pages/api/hello.ts:33 | a version `first` + LF + `rest`, where `rest` is one line that is not itself a field the format knows, reaches the client as `first` alone, so the client never sees the written version |
| Sse.FrameInjective | pages/api/hello.ts:33 | different versions give different frames |
| Sse.ReadStream | pages/api/hello.ts:32-34 | for versions with no CR or LF, an idle client reading a writer's whole stream of their frames sees one `version` event per frame, in order, and ends idle |
| Handler.Handle | pages/api/hello.ts:71-81 | a request leaves a host recorded and its writer subscribed; any fetch it starts goes to the recorded host |
| Handler.CreateSteady | pages/api/hello.ts:15-23 | the notifier built at module load is steady |
| Handler.SteadyPollsIffSubscribed | pages/api/hello.ts:44-64 | in a steady notifier, polling goes on if and only if some writer is subscribed, and at most one timer is live |
| Handler.StepKeepsSteady | pages/api/hello.ts:55-64 | a request with a new writer, a disconnection or a timer event each keep the notifier steady |
| Handler.RunKeepsSteady | pages/api/hello.ts:71-87 | every handler trace from a steady notifier ends steady |
| Handler.PollingIffSubscribed | pages/api/hello.ts:71-87 | in the model, where a poll step is atomic: along any handler trace from module load, the notifier polls exactly while a client is connected, with a single timer |
| Handler.EveryPollHasHost | pages/api/hello.ts:72-81 | in a steady notifier, every fetch an event issues, from a subscription or a timer, targets a recorded host |
| Handler.LaterRequestDoesNotPoll | pages/api/hello.ts:78-81 | in any notifier, steady or not, a request whose new writer joins others already subscribed fetches nothing and writes nothing |
| Handler.LastLeaveStopsPolling | pages/api/hello.ts:60-63 | in the model, where a poll step is atomic: along any handler trace from module load whose requests bring new writers, the disconnection of the only remaining client leaves no writer and no live timer |
| Handler.Scenario | pages/api/hello.ts:71-87 | walks through one run. The first client, on `example.com`, is sent `1.2.3`. A second client causes no fetch. When both leave, polling stops and timer events do nothing |

## Left out

- `scripts/prebuild.ts` writes `version.txt` at build time. It is file and environment I/O with no logic to model.
- `fetch` and `res.text()` are an input to each poll step (`FetchOutcome`). The model records the URL fetched.
- Timer delays are recorded, not elapsed. The model has no clock, and a timer event stands for any live timer firing.
- `TextEncoder` byte encoding: frames are strings.
- `console.error` logging has no effect on state.
- Asynchrony is not modelled: a poll step is atomic. Races such as `stop` running while a fetch is in flight, after which the completion schedules a new timer, are outside the model.
- `writer.write` is never awaited, and its failures and backpressure are not modelled: every write is delivered.
- The `NODE_ENV` protocol choice is the `development` parameter of `Notifier.Create`.
- Framework plumbing is not modelled: the `runtime` export, the `TransformStream`, the response headers and `writer.close()` on abort. Registering the abort listener is modelled only as the `Disconnect` event.
- A null `Host` header is left out. The handler's non-null assertion is taken at its word, so the host is always a string.
- The event-stream reader in `Sse` leaves out UTF-8 decoding, byte-order-mark stripping and the delivery of events to listeners. It does model line splitting on CRLF, LF and CR, comments, the four fields and dispatch.
- Handler.PollingIffSubscribed: it covers only traces in which each request brings a writer not already subscribed, because the handler creates a new writer per request. Outside such traces the stray-timer behaviour applies, as `Notifier.ResubscribeLeavesStrayTimer` states. It also rests on the poll step being atomic, and in the program it can fail. Suppose the last client disconnects while a poll's fetch is awaited (`pages/api/hello.ts` lines 28-29). Then `stop` nulls `timeout`, and the poll's completion still arms a new timer with no writers (line 36 or 40). The next first subscriber then starts a second loop that `stop` can never reach.
- Handler.LastLeaveStopsPolling: it rests on the poll step being atomic and, like `Handler.PollingIffSubscribed`, covers only traces whose requests bring new writers. In the program it can fail. Client A connects and `start` runs (`pages/api/hello.ts` line 58). A disconnects while the fetch is awaited (lines 28-29), and `stop` nulls `timeout` (lines 45-46). The fetch completes and line 36 arms a timer T1 with no writers. Client B connects, `start` runs again, and line 36 overwrites `timeout` with T2. When B, the only client, disconnects, line 45 clears T2 only, and T1 stays live.

=== FILE: handler.dfy ===
/**
 * The streaming endpoint's use of the notifier. Each request records its
 * `Host` header with `setHost` and only then subscribes the writer of the
 * stream it creates; a client's disconnection unsubscribes that writer.
 * Together with timer events these form the traces the notifier sees. In
 * the model, where a poll step is atomic, the notifier polls exactly while
 * someone listens along every such trace. The program's poll awaits its
 * fetch, and a last client leaving during that await breaks this.
 */
module Handler {
  import opened Wrappers
  import Sse
  import opened Notifier

  /** One request: `setHost` with the request's host, then `subscribe` of
      the request's new writer. Any poll the subscription starts already
      sees a recorded host, and fetches from it. */
  function Handle(s: State, hostHeader: string, w: Writer, outcome: FetchOutcome): (r: State)
    ensures r.host.Some?
    ensures !HostIsSet(s) ==> r.host == Some(hostHeader)
    ensures HostIsSet(s) ==> r.host == s.host
    ensures r.writers == s.writers + {w}
    ensures |r.fetches| != |s.fetches| ==> r.fetches == s.fetches + [VersionUrl(r)]
  {
    Subscribe(SetHost(s, hostHeader), w, outcome)
  }

  /** What reaches the notifier: a request, a client going away, or one of
      the notifier's own timers firing. */
  datatype Input =
    | Request(host: string, writer: Writer, outcome: FetchOutcome)
    | Disconnect(writer: Writer)
    | TimerFires(outcome: FetchOutcome)

  function Step(s: State, e: Input): (r: State)
  {
    match e
    case Request(h, w, o) => Handle(s, h, w, o)
    case Disconnect(w) => Unsubscribe(s, w)
    case TimerFires(o) => Fire(s, o)
  }

  function Run(s: State, events: seq<Input>): (r: State)
    decreases |events|
  {
    if events == [] then s else Run(Step(s, events[0]), events[1..])
  }

  /** Running two traces one after the other is running their concatenation. */
  lemma {:induction false} RunConcat(s: State, a: seq<Input>, b: seq<Input>)
    ensures Run(s, a + b) == Run(Run(s, a), b)
    decreases |a|
  {
    if a == [] {
      assert a + b == b;
    } else {
      assert (a + b)[0] == a[0];
      assert (a + b)[1..] == a[1..] + b;
      RunConcat(Step(s, a[0]), a[1..], b);
    }
  }

  /** Every request brings a writer that is not subscribed when it arrives:
      the handler creates a new stream per request. */
  predicate FreshWriters(s: State, events: seq<Input>)
    decreases |events|
  {
    events == [] ||
    ((events[0].Request? ==> events[0].writer !in s.writers) && FreshWriters(Step(s, events[0]), events[1..]))
  }

  /** The shape of every notifier the endpoint can produce: no stray timer,
      a pending timer exactly while writers are subscribed, and a recorded
      host whenever anyone is subscribed. */
  predicate Steady(s: State)
  {
    && s.strayTimers == 0
    && (s.timeout.Pending? <==> s.writers != {})
    && (s.writers != {} ==> s.host.Some?)
  }

  lemma CreateSteady(development: bool)
    ensures Steady(Create(development))
  {
  }

  /** In a steady notifier, polling goes on exactly while a writer is
      subscribed, and at most one timer is ever live. */
  lemma SteadyPollsIffSubscribed(s: State)
    requires Steady(s)
    ensures Polling(s) <==> s.writers != {}
    ensures LiveTimers(s) <= 1
  {
  }

  /** Every event the endpoint produces keeps the notifier steady. */
  lemma StepKeepsSteady(s: State, e: Input)
    requires Steady(s)
    requires e.Request? ==> e.writer !in s.writers
    ensures Steady(Step(s, e))
  {
    match e
    case Request(h, w, o) =>
      var s1 := SetHost(s, h);
      assert s1.writers == s.writers && s1.timeout == s.timeout && s1.strayTimers == s.strayTimers;
      if s.writers == {} {
        assert s1.writers <= {w};
      } else {
        var x :| x in s.writers;
        assert x != w;
        assert !(s1.writers <= {w});
      }
    case Disconnect(w) =>
    case TimerFires(o) =>
  }

  /** Along every trace of the endpoint from a steady notifier, it stays
      steady. */
  lemma {:induction false} RunKeepsSteady(s: State, events: seq<Input>)
    requires Steady(s)
    requires FreshWriters(s, events)
    ensures Steady(Run(s, events))
    decreases |events|
  {
    if events != [] {
      StepKeepsSteady(s, events[0]);
      RunKeepsSteady(Step(s, events[0]), events[1..]);
    }
  }

  /** In the model, where a poll step is atomic, the notifier the endpoint
      drives polls exactly while a client is connected, with a single timer:
      no duplicate polling loops, and no polling once the last client has
      left. */
  lemma PollingIffSubscribed(development: bool, events: seq<Input>)
    requires FreshWriters(Create(development), events)
    ensures var r := Run(Create(development), events);
      (Polling(r) <==> r.writers != {}) && LiveTimers(r) <= 1
  {
    CreateSteady(development);
    RunKeepsSteady(Create(development), events);
    SteadyPollsIffSubscribed(Run(Create(development), events));
  }

  /** In the model, where a poll step is atomic, the last client to leave
      stops the polling: when a trace of the endpoint leaves `w` the only
      subscriber, `w`'s disconnection leaves no writer and no live timer.
      The program's poll awaits its fetch, and a timer armed after a last
      disconnection during that await outlives the next one. */
  lemma LastLeaveStopsPolling(development: bool, events: seq<Input>, w: Writer)
    requires FreshWriters(Create(development), events)
    requires Run(Create(development), events).writers == {w}
    ensures var r := Run(Create(development), events + [Disconnect(w)]);
      r.writers == {} && !Polling(r)
  {
    CreateSteady(development);
    RunKeepsSteady(Create(development), events);
    RunConcat(Create(development), events, [Disconnect(w)]);
  }

  /** Every fetch the endpoint's traces issue, whether a subscription or a
      timer started it, goes to a recorded host. */
  lemma EveryPollHasHost(s: State, e: Input)
    requires Steady(s)
    ensures var r := Step(s, e);
      |r.fetches| != |s.fetches| ==> r.host.Some? && r.fetches == s.fetches + [VersionUrl(r)]
  {
  }

  /** A request that is not the first one polls nothing: a second client
      waits for the next scheduled poll. */
  lemma LaterRequestDoesNotPoll(s: State, h: string, w: Writer, o: FetchOutcome)
    requires s.writers != {} && w !in s.writers
    ensures Handle(s, h, w, o).fetches == s.fetches
    ensures forall x :: Delivered(Handle(s, h, w, o), x) == Delivered(s, x)
  {
    var x :| x in s.writers;
    assert !(SetHost(s, h).writers <= {w});
  }

  /** A first client on host `example.com`, whose initial poll reads
      `1.2.3`, gets that version's frame; a second client triggers no fetch;
      once both have left, polling has stopped and a timer event does
      nothing. */
  lemma Scenario(o: FetchOutcome)
    ensures var s1 := Handle(Create(false), "example.com", 1, Resolved(200, "1.2.3"));
      && s1.fetches == ["https://example.com/version.txt"]
      && Delivered(s1, 1) == [Sse.Frame("1.2.3")]
      && var s2 := Handle(s1, "example.com", 2, o);
      && s2.fetches == s1.fetches
      && Delivered(s2, 2) == []
      && var s3 := Unsubscribe(Unsubscribe(s2, 1), 2);
      && !Polling(s3)
      && Fire(s3, o) == s3
  {
    var s1 := Handle(Create(false), "example.com", 1, Resolved(200, "1.2.3"));
    ScenarioFirstClient();
    var s2 := Handle(s1, "example.com", 2, o);
    LaterRequestDoesNotPoll(s1, "example.com", 2, o);
    var s3 := Unsubscribe(Unsubscribe(s2, 1), 2);
    assert s2.writers == {1, 2};
    assert Unsubscribe(s2, 1).writers == {2};
    assert s3.writers == {};
  }

  lemma ScenarioFirstClient()
    ensures var s1 := Handle(Create(false), "example.com", 1, Resolved(200, "1.2.3"));
      && Steady(s1) && s1.writers == {1}
      && s1.fetches == ["https://example.com/version.txt"]
      && Delivered(s1, 1) == [Sse.Frame("1.2.3")]
  {
    var s0 := Create(false);
    var h := SetHost(s0, "example.com");
    assert h.writers <= {1};
    assert h.(writers := {1}).fetches == [];
    assert VersionUrl(h.(writers := {1})) == "https://example.com/version.txt";
    assert Delivered(h.(writers := {1}), 1) == [];
  }
}

=== FILE: notifier.dfy ===
/**
 * The process-wide version notifier: one poller shared by every connected
 * client. It fetches `version.txt` from the host it recorded, writes the
 * result as an event-stream frame to every subscribed writer, and schedules
 * its next poll. The first subscriber starts the polling and the last one to
 * leave stops it.
 *
 * The notifier is a value and each operation a transition. A poll step is
 * atomic: the fetch, the fan-out and the rescheduling happen in one
 * transition, and the fetch's outcome is an input.
 */
module Notifier {
  import opened Wrappers
  import Sse

  /** A subscriber's output stream, known only by its identity. */
  type Writer = nat

  /** Delay, in milliseconds, between polls after a fetch that resolved. */
  const IntervalMs: nat := 5000

  /** Delay after a fetch that threw: half the interval. 5000 / 2 is exact,
      so integer division agrees with the JavaScript division. */
  const RetryDelayMs: nat := IntervalMs / 2

  /** The `timeout` variable: the handle of the last timer scheduled, or null. */
  datatype Timer = Idle | Pending(delayMs: nat)

  /** What `fetch` followed by `res.text()` produced. A resolved fetch carries
      its HTTP status, which the poll never reads. */
  datatype FetchOutcome = Resolved(status: nat, body: string) | Threw

  datatype State = State(
    protocol: string,                 // `http` in development, `https` otherwise
    host: Option<string>,             // None while `host` is still `undefined`
    writers: set<Writer>,             // the subscribed writers
    timeout: Timer,                   // the timer `stop` would clear
    strayTimers: nat,                 // live timers whose handle `timeout` no longer holds
    fetches: seq<string>,             // URL of every fetch issued, oldest first
    out: map<Writer, seq<string>>)    // frames written to each writer, oldest first

  /** A notifier as built at module load: no host, no writers, no timer. */
  function Create(development: bool): (s: State)
    ensures s.host == None && s.writers == {} && !Polling(s) && s.fetches == []
    ensures forall w :: Delivered(s, w) == []
  {
    State(if development then "http" else "https", None, {}, Idle, 0, [], map[])
  }

  /** JavaScript truthiness of the recorded host: neither `undefined` nor empty. */
  predicate HostIsSet(s: State)
  {
    s.host.Some? && s.host.value != []
  }

  /** How a template literal prints the host. */
  function HostText(host: Option<string>): (text: string)
  {
    match host
    case None => "undefined"
    case Some(h) => h
  }

  /** The resource every poll fetches. */
  function VersionUrl(s: State): (url: string)
    ensures |url| == |s.protocol| + 3 + |HostText(s.host)| + 12
    ensures url[..|s.protocol| + 3] == s.protocol + "://"
    ensures url[|url| - 12..] == "/version.txt"
    ensures s.host.None? ==> url[|s.protocol| + 3..|url| - 12] == "undefined"
    ensures s.host.Some? ==> url[|s.protocol| + 3..|url| - 12] == s.host.value
  {
    s.protocol + "://" + HostText(s.host) + "/version.txt"
  }

  /** Frames written to `w` so far. */
  function Delivered(s: State, w: Writer): (frames: seq<string>)
  {
    if w in s.out then s.out[w] else []
  }

  /** Timers that are still scheduled to fire. */
  function LiveTimers(s: State): (n: nat)
  {
    s.strayTimers + if s.timeout.Pending? then 1 else 0
  }

  /** Some timer will fire and run another poll. */
  predicate Polling(s: State)
  {
    LiveTimers(s) > 0
  }

  /** `setHost`: a host is recorded only while none is set; an empty host
      counts as unset and is overwritten by the next call. */
  function SetHost(s: State, host: string): (r: State)
    ensures HostIsSet(s) ==> r == s
    ensures !HostIsSet(s) ==> r.host == Some(host) && r == s.(host := r.host)
  {
    if HostIsSet(s) then s else s.(host := Some(host))
  }

  /** Writes `frame` to every subscribed writer, in one step. */
  function FanOut(s: State, frame: string): (r: State)
    ensures r == s.(out := r.out)
    ensures forall w :: w in s.writers ==> Delivered(r, w) == Delivered(s, w) + [frame]
    ensures forall w :: w !in s.writers ==> Delivered(r, w) == Delivered(s, w)
  {
    s.(out := map w | w in s.out.Keys + s.writers ::
                Delivered(s, w) + if w in s.writers then [frame] else [])
  }

  /** `setTimeout(start, delayMs)`: the new handle replaces the one in
      `timeout`, and a timer that handle pointed to lives on as a stray. */
  function Schedule(s: State, delayMs: nat): (r: State)
    ensures r.timeout == Pending(delayMs)
    ensures LiveTimers(r) == LiveTimers(s) + 1
    ensures r == s.(timeout := r.timeout, strayTimers := r.strayTimers)
  {
    s.(timeout := Pending(delayMs),
       strayTimers := if s.timeout.Pending? then s.strayTimers + 1 else s.strayTimers)
  }

  /** `start`: one poll step. The fetch goes to the recorded host whatever
      it is. Any fetch that resolves counts as success, whatever its status:
      its body is written to every writer and the next poll comes after the
      full interval. A fetch that throws writes nothing and retries after
      half the interval. */
  function Start(s: State, outcome: FetchOutcome): (r: State)
    ensures r.fetches == s.fetches + [VersionUrl(s)]
    ensures r.protocol == s.protocol && r.host == s.host && r.writers == s.writers
    ensures LiveTimers(r) == LiveTimers(s) + 1
    ensures outcome.Resolved? ==>
              && r.timeout == Pending(IntervalMs)
              && (forall w :: w in s.writers ==> Delivered(r, w) == Delivered(s, w) + [Sse.Frame(outcome.body)])
              && (forall w :: w !in s.writers ==> Delivered(r, w) == Delivered(s, w))
    ensures outcome.Threw? ==> r.timeout == Pending(RetryDelayMs) && r.out == s.out
  {
    var s1 := s.(fetches := s.fetches + [VersionUrl(s)]);
    match outcome
    case Resolved(_, body) => Schedule(FanOut(s1, Sse.Frame(body)), IntervalMs)
    case Threw => Schedule(s1, RetryDelayMs)
  }

  /** `stop`: clears the timer `timeout` holds. Stray timers cannot be reached. */
  function Stop(s: State): (r: State)
    ensures r.timeout == Idle
    ensures r.strayTimers == s.strayTimers
    ensures LiveTimers(r) == LiveTimers(s) - (if s.timeout.Pending? then 1 else 0)
    ensures r == s.(timeout := Idle)
  {
    s.(timeout := Idle)
  }

  /** `subscribe`: adds the writer, then polls at once when the set now has
      exactly one writer, which includes re-adding the only writer. */
  function Subscribe(s: State, w: Writer, outcome: FetchOutcome): (r: State)
    ensures r.writers == s.writers + {w}
    ensures r.host == s.host && r.protocol == s.protocol
    ensures s.writers <= {w} ==> r == Start(s.(writers := {w}), outcome)
    ensures !(s.writers <= {w}) ==> r == s.(writers := s.writers + {w})
  {
    var s1 := s.(writers := s.writers + {w});
    SizeOneAfterAdd(s.writers, w);
    if |s1.writers| == 1 then Start(s1, outcome) else s1
  }

  /** `unsubscribe`: removes the writer, then stops when no writer is left. */
  function Unsubscribe(s: State, w: Writer): (r: State)
    ensures r.writers == s.writers - {w}
    ensures r.writers == {} ==> r.timeout == Idle
    ensures r.writers != {} ==> r.timeout == s.timeout
    ensures r == s.(writers := r.writers, timeout := r.timeout)
  {
    var s1 := s.(writers := s.writers - {w});
    if |s1.writers| == 0 then Stop(s1) else s1
  }

  /** A live timer fires and runs `start`. Whether it was the one `timeout`
      holds or a stray, `start` then replaces the handle in `timeout`, so the
      outcome is the same. With no live timer nothing happens. */
  function Fire(s: State, outcome: FetchOutcome): (r: State)
    ensures !Polling(s) ==> r == s
    ensures Polling(s) ==> LiveTimers(r) == LiveTimers(s) && r.fetches == s.fetches + [VersionUrl(s)]
    ensures Polling(s) && outcome.Resolved? ==>
              && r.timeout == Pending(IntervalMs)
              && (forall w :: w in s.writers ==> Delivered(r, w) == Delivered(s, w) + [Sse.Frame(outcome.body)])
              && (forall w :: w !in s.writers ==> Delivered(r, w) == Delivered(s, w))
    ensures Polling(s) && outcome.Threw? ==> r.timeout == Pending(RetryDelayMs) && r.out == s.out
    ensures r.writers == s.writers && r.host == s.host && r.protocol == s.protocol
  {
    if Polling(s) then Start(s.(timeout := Idle, strayTimers := LiveTimers(s) - 1), outcome) else s
  }

  // ---------------------------------------------------------------------------
  // Lemmas.
  // ---------------------------------------------------------------------------

  /** After insertion the set has exactly one writer precisely when it held
      nothing but (at most) that writer before. */
  lemma SizeOneAfterAdd(ws: set<Writer>, w: Writer)
    ensures |ws + {w}| == 1 <==> ws <= {w}
  {
    if ws <= {w} {
      assert ws + {w} == {w};
    } else {
      var x :| x in ws && x != w;
      assert {x, w} <= ws + {w};
      assert |{x, w}| == 2;
      SubsetSize({x, w}, ws + {w});
    }
  }

  lemma {:induction false} SubsetSize(a: set<Writer>, b: set<Writer>)
    requires a <= b
    ensures |a| <= |b|
    decreases b
  {
    if a != b {
      var x :| x in b && x !in a;
      SubsetSize(a, b - {x});
    }
  }

  /** The first non-empty host wins: once one is recorded, no later call
      changes it. */
  lemma {:induction false} SetHostFirstWins(s: State, hosts: seq<string>)
    requires HostIsSet(s)
    ensures SetHosts(s, hosts) == s
    decreases |hosts|
  {
    if hosts != [] {
      SetHostFirstWins(SetHost(s, hosts[0]), hosts[1..]);
    }
  }

  /** Repeated `setHost` calls, in order. */
  function SetHosts(s: State, hosts: seq<string>): (r: State)
    ensures r.writers == s.writers && r.fetches == s.fetches && r.out == s.out
    decreases |hosts|
  {
    if hosts == [] then s else SetHosts(SetHost(s, hosts[0]), hosts[1..])
  }

  /** Two calls with different values keep the first, unless the first was
      the empty host, which the second then replaces. */
  lemma SetHostTwice(s: State, a: string, b: string)
    requires !HostIsSet(s)
    ensures a != [] ==> SetHost(SetHost(s, a), b).host == Some(a)
    ensures a == [] ==> SetHost(SetHost(s, a), b).host == Some(b)
  {
  }

  /** `setHost` with the same value twice is the same as once. */
  lemma SetHostIdempotent(s: State, h: string)
    ensures SetHost(SetHost(s, h), h) == SetHost(s, h)
  {
  }

  /** A subscription keeps every writer already present and adds the new one. */
  lemma SubscribeKeepsWriters(s: State, w: Writer, outcome: FetchOutcome)
    ensures var r := Subscribe(s, w, outcome);
      w in r.writers && s.writers <= r.writers && |r.writers| >= |s.writers|
  {
    var r := Subscribe(s, w, outcome);
    SubsetSize(s.writers, r.writers);
  }

  /** A subscription polls (issues exactly one fetch) precisely when the set
      holds a single writer after insertion; otherwise it fetches nothing and
      writes nothing. */
  lemma SubscribePollsIffFirst(s: State, w: Writer, outcome: FetchOutcome)
    ensures var r := Subscribe(s, w, outcome);
      && (|r.writers| == 1 ==> r.fetches == s.fetches + [VersionUrl(s)])
      && (|r.writers| != 1 ==> r.fetches == s.fetches && r.out == s.out && r.timeout == s.timeout)
  {
    SizeOneAfterAdd(s.writers, w);
  }

  /** Re-subscribing the only writer polls again although polling is under
      way: `start` runs a second time and the timer pending before becomes a
      stray. Unsubscribing that writer then clears only the newer timer, so
      the notifier keeps polling with no writer at all. */
  lemma ResubscribeLeavesStrayTimer(s: State, w: Writer, outcome: FetchOutcome)
    requires s.writers == {w} && s.timeout.Pending?
    ensures |Subscribe(s, w, outcome).fetches| == |s.fetches| + 1
    ensures var r := Unsubscribe(Subscribe(s, w, outcome), w);
      r.writers == {} && Polling(r) && LiveTimers(r) == LiveTimers(s)
  {
    assert s.writers + {w} == {w};
    assert s.(writers := {w}) == s;
  }

  /** Unsubscribing removes only that writer; removing an absent writer
      leaves the notifier unchanged unless no writer is left, in which case
      the timer is cleared (as it already was, in a steady notifier). */
  lemma UnsubscribeOthersUnchanged(s: State, w: Writer)
    ensures var r := Unsubscribe(s, w);
      && w !in r.writers
      && (forall x :: x != w ==> (x in r.writers <==> x in s.writers))
      && r.fetches == s.fetches && r.out == s.out && r.host == s.host
      && (w !in s.writers && s.writers != {} ==> r == s)
  {
    if w !in s.writers {
      assert s.writers - {w} == s.writers;
    }
  }

  /** A resolved poll gives every subscribed writer the same new frame, and
      that frame is the one for the fetched body, whatever the status. */
  lemma FanOutIdentical(s: State, status: nat, body: string, w1: Writer, w2: Writer)
    requires w1 in s.writers && w2 in s.writers
    ensures var r := Start(s, Resolved(status, body));
      && |Delivered(r, w1)| > 0 && |Delivered(r, w2)| > 0
      && Delivered(r, w1)[|Delivered(r, w1)| - 1] == Delivered(r, w2)[|Delivered(r, w2)| - 1]
      && Delivered(r, w1)[|Delivered(r, w1)| - 1] == Sse.Frame(body)
  {
  }

  /** The status of a resolved fetch is never read: an error page is
      delivered like a version. */
  lemma StatusIgnored(s: State, body: string, status1: nat, status2: nat)
    ensures Start(s, Resolved(status1, body)) == Start(s, Resolved(status2, body))
  {
  }

  /** A poll that throws writes nothing and retries at half the interval;
      one that resolves, even with status 500, writes and waits the full
      interval. */
  lemma BackoffOnThrow(s: State, body: string)
    ensures Start(s, Threw).timeout == Pending(2500) && Start(s, Threw).out == s.out
    ensures Start(s, Resolved(500, body)).timeout == Pending(5000)
    ensures forall w :: w in s.writers ==>
              Delivered(Start(s, Resolved(500, body)), w) == Delivered(s, w) + [Sse.Frame(body)]
  {
  }

  /** Once no timer is live, timer events change nothing: no fetch is issued
      and nothing is written. */
  lemma {:induction false} StoppedStaysStopped(s: State, outcomes: seq<FetchOutcome>)
    requires !Polling(s)
    ensures FireAll(s, outcomes) == s
    decreases |outcomes|
  {
    if outcomes != [] {
      StoppedStaysStopped(Fire(s, outcomes[0]), outcomes[1..]);
    }
  }

  /** Timer events one after the other. */
  function FireAll(s: State, outcomes: seq<FetchOutcome>): (r: State)
    ensures r.writers == s.writers
    decreases |outcomes|
  {
    if outcomes == [] then s else FireAll(Fire(s, outcomes[0]), outcomes[1..])
  }

  /** What a client reading a subscribed writer's stream gets from a
      resolved poll: exactly one more event, of type `version`, carrying the
      fetched body (less one leading space) when the body fits on a line. */
  lemma ClientReadsPoll(s: State, w: Writer, status: nat, body: string, c: Sse.Client)
    requires w in s.writers
    requires Sse.Idle(Sse.Feed(c, Sse.Stream(Delivered(s, w))))
    requires Sse.NoLineBreak(body)
    ensures Sse.Feed(c, Sse.Stream(Delivered(Start(s, Resolved(status, body)), w))).events
         == Sse.Feed(c, Sse.Stream(Delivered(s, w))).events + [Sse.Event("version", Sse.StripSpace(body), [])]
  {
    var before := Sse.Feed(c, Sse.Stream(Delivered(s, w)));
    Sse.StreamAppend(Delivered(s, w), Sse.Frame(body));
    Sse.FeedConcat(c, Sse.Stream(Delivered(s, w)), Sse.Frame(body));
    Sse.ReadFrame(before, body);
  }

  /** `ClientReadsPoll` for a writer that has only ever been sent frames,
      which is all the notifier writes. After one frame the reader is idle
      whatever it started in, so only a client that has read nothing yet
      needs to start idle. */
  lemma ClientReadsEveryPoll(s: State, w: Writer, previous: seq<string>, status: nat, body: string, c: Sse.Client)
    requires w in s.writers
    requires Delivered(s, w) == Sse.Frames(previous)
    requires Sse.Idle(c) || previous != []
    requires Sse.NoLineBreak(body)
    ensures Sse.Feed(c, Sse.Stream(Delivered(Start(s, Resolved(status, body)), w))).events
         == Sse.Feed(c, Sse.Stream(Delivered(s, w))).events + [Sse.Event("version", Sse.StripSpace(body), [])]
  {
    if previous == [] {
      assert Sse.Stream(Delivered(s, w)) == [];
    } else {
      Sse.IdleAfterFrames(c, previous);
    }
    ClientReadsPoll(s, w, status, body, c);
  }

  /** Once a stray timer exists, new subscribers add polling loops. The
      stray fires with no writers and re-arms `timeout`; the next first
      subscriber then runs `start` over that pending timer, which becomes a
      stray in turn. */
  lemma StrayBreedsStray(s: State, o1: FetchOutcome, w: Writer, o2: FetchOutcome)
    requires s.writers == {} && s.timeout == Idle && s.strayTimers > 0
    ensures var f := Fire(s, o1);
      f.writers == {} && f.timeout.Pending? && f.strayTimers == s.strayTimers - 1
    ensures var r := Subscribe(Fire(s, o1), w, o2);
      r.writers == {w} && r.strayTimers == s.strayTimers && LiveTimers(r) == LiveTimers(s) + 1
  {
    var f := Fire(s, o1);
    assert f.writers <= {w};
  }
}

=== FILE: sse.dfy ===
/**
 * The text frame the version notifier writes to each subscribed stream, and a
 * reader of the Server-Sent Events wire format as a browser's EventSource
 * applies it (HTML Living Standard, section 9.2.6 "Interpreting an event
 * stream"). The reader is an independent statement of what a client
 * receives, and the lemmas here compare it with the notifier's frames.
 */
module Sse {
  import opened Wrappers

  /** The reconnection time, in milliseconds, that every frame announces. */
  const RetryMs: nat := 500

  /** The frame announcing `version`: an empty `id`, event type `version`, the
      version text as `data`, a `retry` of 500 ms and the blank line that ends
      the event. The version is inserted as is, without escaping. */
  function Frame(version: string): (frame: string)
    ensures |frame| == |version| + 35
    ensures frame[..23] == "id:\nevent:version\ndata:"
    ensures frame[23..23 + |version|] == version
    ensures frame[23 + |version|..] == "\nretry:500\n\n"
  {
    "id:\nevent:version\ndata:" + version + "\nretry:500\n\n"
  }

  /** Concatenation of the frames written to one stream, in order. */
  function Stream(frames: seq<string>): (text: string)
  {
    if frames == [] then [] else Stream(frames[..|frames| - 1]) + frames[|frames| - 1]
  }

  predicate IsLineBreak(c: char)
  {
    c == '\n' || c == '\r'
  }

  /** `text` fits on one line of an event stream. */
  predicate NoLineBreak(text: string)
  {
    forall i :: 0 <= i < |text| ==> !IsLineBreak(text[i])
  }

  // ---------------------------------------------------------------------------
  // The client side of the protocol.
  // ---------------------------------------------------------------------------

  /** A dispatched event, as the client's `onmessage`/`addEventListener`
      handlers see it. */
  datatype Event = Event(eventType: string, data: string, lastEventId: string)

  /** What an event-stream reader remembers between characters. */
  datatype Client = Client(
    line: string,          // characters of the current, not yet terminated line
    afterCR: bool,         // the previous character was a CR, so an LF now ends no line
    eventType: string,     // the event type buffer
    data: string,          // the data buffer
    idBuffer: string,      // the last event ID buffer
    lastEventId: string,   // the last event ID string of the event source
    retry: Option<nat>,    // reconnection time; None while the user agent's default applies
    events: seq<Event>)    // events dispatched so far, oldest first

  /** A reader between two events: no partial line and empty buffers. */
  predicate Idle(c: Client)
  {
    c.line == [] && !c.afterCR && c.eventType == [] && c.data == []
  }

  /** The value of a field: a single leading space after the colon is dropped. */
  function StripSpace(s: string): (v: string)
    ensures |s| > 0 && s[0] == ' ' ==> s == " " + v
    ensures !(|s| > 0 && s[0] == ' ') ==> v == s
  {
    if |s| > 0 && s[0] == ' ' then s[1..] else s
  }

  /** Position of the first colon in `s`, or `|s|` when there is none. */
  function ColonIndex(s: string): (i: nat)
    ensures i <= |s|
    ensures i < |s| ==> s[i] == ':'
    ensures forall j :: 0 <= j < i ==> s[j] != ':'
  {
    if s == [] then 0 else if s[0] == ':' then 0 else 1 + ColonIndex(s[1..])
  }

  predicate IsDigit(c: char)
  {
    '0' <= c <= '9'
  }

  predicate AllDigits(s: string)
  {
    forall i :: 0 <= i < |s| ==> IsDigit(s[i])
  }

  /** The base-ten number written by the digits `s`. */
  function DecimalValue(s: string): (n: nat)
    requires AllDigits(s)
    ensures |s| > 0 ==> n == 10 * DecimalValue(s[..|s| - 1]) + (s[|s| - 1] as int - '0' as int)
  {
    if s == [] then 0
    else 10 * DecimalValue(s[..|s| - 1]) + (s[|s| - 1] as int - '0' as int)
  }

  /** Ends the current event: the last event ID is published, and a non-empty
      data buffer becomes an event (type `message` when none was given)
      whose data loses its final LF. Both buffers are emptied. */
  function Dispatch(c: Client): (r: Client)
    ensures r.lastEventId == c.idBuffer && r.data == [] && r.eventType == []
    ensures c.data == [] ==> r.events == c.events
    ensures c.data != [] ==> |r.events| == |c.events| + 1 && r.events[..|c.events|] == c.events
  {
    var c1 := c.(lastEventId := c.idBuffer);
    if c1.data == [] then
      c1.(eventType := [])
    else
      var d := if c1.data[|c1.data| - 1] == '\n' then c1.data[..|c1.data| - 1] else c1.data;
      var t := if c1.eventType == [] then "message" else c1.eventType;
      c1.(events := c1.events + [Event(t, d, c1.lastEventId)], data := [], eventType := [])
  }

  /** One `name:value` field. Unknown names are ignored, as is an `id` that
      holds a NUL and a `retry` that is not all ASCII digits. */
  function ProcessField(c: Client, name: string, value: string): (r: Client)
  {
    if name == "event" then c.(eventType := value)
    else if name == "data" then c.(data := c.data + value + "\n")
    else if name == "id" then
      if '\0' in value then c else c.(idBuffer := value)
    else if name == "retry" then
      if |value| > 0 && AllDigits(value) then c.(retry := Some(DecimalValue(value))) else c
    else c
  }

  /** One complete line: empty dispatches, a leading colon is a comment,
      otherwise the text up to the first colon names the field. */
  function ProcessLine(c: Client, line: string): (r: Client)
  {
    if line == [] then Dispatch(c)
    else if line[0] == ':' then c
    else
      var i := ColonIndex(line);
      var value := if i < |line| then StripSpace(line[i + 1..]) else [];
      ProcessField(c, line[..i], value)
  }

  /** One character of the stream; lines end at CRLF, LF or CR. */
  function Step(c: Client, ch: char): (r: Client)
  {
    if ch == '\n' then
      if c.afterCR then c.(afterCR := false) else ProcessLine(c.(line := []), c.line)
    else if ch == '\r' then
      ProcessLine(c.(line := [], afterCR := true), c.line)
    else
      c.(line := c.line + [ch], afterCR := false)
  }

  /** The reader after consuming `text`. */
  function Feed(c: Client, text: string): (r: Client)
    decreases |text|
  {
    if text == [] then c else Feed(Step(c, text[0]), text[1..])
  }

  // ---------------------------------------------------------------------------
  // Lemmas.
  // ---------------------------------------------------------------------------

  /** Reading a stream in two pieces is reading it at once: the reader's state
      between chunks carries everything, so chunk boundaries do not matter. */
  lemma {:induction false} FeedConcat(c: Client, a: string, b: string)
    ensures Feed(c, a + b) == Feed(Feed(c, a), b)
    decreases |a|
  {
    if a == [] {
      assert a + b == b;
    } else {
      assert (a + b)[0] == a[0];
      assert (a + b)[1..] == a[1..] + b;
      FeedConcat(Step(c, a[0]), a[1..], b);
    }
  }

  /** Text without line breaks only extends the current line. */
  lemma {:induction false} FeedText(c: Client, t: string)
    requires NoLineBreak(t)
    ensures Feed(c, t) == c.(line := c.line + t, afterCR := if t == [] then c.afterCR else false)
    decreases |t|
  {
    if t == [] {
      assert c.line + t == c.line;
    } else {
      var c1 := Step(c, t[0]);
      assert !IsLineBreak(t[0]);
      assert NoLineBreak(t[1..]) by {
        forall i | 0 <= i < |t[1..]| ensures !IsLineBreak(t[1..][i]) {
          assert t[1..][i] == t[i + 1];
        }
      }
      FeedText(c1, t[1..]);
      assert c.line + [t[0]] + t[1..] == c.line + t;
    }
  }

  /** A reader at the start of a line, fed one line and its LF, processes
      exactly that line. */
  lemma FeedLine(c: Client, t: string)
    requires c.line == [] && !c.afterCR
    requires NoLineBreak(t)
    ensures Feed(c, t + "\n") == ProcessLine(c, t)
  {
    FeedConcat(c, t, "\n");
    FeedText(c, t);
    var c1 := c.(line := t);
    assert Feed(c, t) == c1;
    assert Feed(c1, "\n") == Step(c1, '\n');
    assert c1.(line := []) == c;
  }

  /** A line `name:value` is the field `name`, whatever the value holds. */
  lemma FieldLine(c: Client, name: string, value: string)
    requires |name| > 0 && ':' !in name
    ensures ProcessLine(c, name + ":" + value) == ProcessField(c, name, StripSpace(value))
  {
    var line := name + ":" + value;
    assert line[|name|] == ':';
    forall j | 0 <= j < |name| ensures line[j] != ':' {
      assert line[j] == name[j];
    }
    assert ColonIndex(line) == |name|;
    assert line[..|name|] == name;
    assert line[|name| + 1..] == value;
  }

  /** Reading one field line from the start of a line. */
  lemma FeedField(c: Client, name: string, value: string)
    requires c.line == [] && !c.afterCR
    requires |name| > 0 && ':' !in name
    requires NoLineBreak(name) && NoLineBreak(value)
    ensures Feed(c, name + ":" + value + "\n") == ProcessField(c, name, StripSpace(value))
  {
    var line := name + ":" + value;
    assert NoLineBreak(line) by {
      forall i | 0 <= i < |line| ensures !IsLineBreak(line[i]) {
        if i < |name| { assert line[i] == name[i]; }
        else if i > |name| { assert line[i] == value[i - |name| - 1]; }
      }
    }
    FeedLine(c, line);
    FieldLine(c, name, value);
  }

  lemma IdLine(c: Client)
    requires c.line == [] && !c.afterCR
    ensures Feed(c, "id:\n") == c.(idBuffer := [])
  {
    assert "id" + ":" + "" + "\n" == "id:\n";
    assert StripSpace("") == "";
    assert ProcessField(c, "id", "") == c.(idBuffer := []);
    FeedField(c, "id", "");
  }

  lemma EventLine(c: Client)
    requires c.line == [] && !c.afterCR
    ensures Feed(c, "event:version\n") == c.(eventType := "version")
  {
    EventLineText();
    EventField(c);
    FeedField(c, "event", "version");
  }

  lemma EventLineText()
    ensures "event" + ":" + "version" + "\n" == "event:version\n"
    ensures NoLineBreak("event") && NoLineBreak("version") && ':' !in "event"
  {
    assert "event"[0] == 'e' && "event"[1] == 'v' && "event"[2] == 'e' && "event"[3] == 'n' && "event"[4] == 't';
  }

  lemma EventField(c: Client)
    ensures ProcessField(c, "event", StripSpace("version")) == c.(eventType := "version")
  {
    assert StripSpace("version") == "version";
  }

  lemma DataLine(c: Client, value: string)
    requires c.line == [] && !c.afterCR
    requires NoLineBreak(value)
    ensures Feed(c, "data:" + value + "\n") == c.(data := c.data + StripSpace(value) + "\n")
  {
    DataLineText(value);
    FeedField(c, "data", value);
  }

  lemma DataLineText(value: string)
    ensures "data" + ":" + value + "\n" == "data:" + value + "\n"
    ensures NoLineBreak("data") && ':' !in "data"
  {
    assert "data"[0] == 'd' && "data"[1] == 'a' && "data"[2] == 't' && "data"[3] == 'a';
  }

  lemma RetryLine(c: Client)
    requires c.line == [] && !c.afterCR
    ensures Feed(c, "retry:500\n") == c.(retry := Some(RetryMs))
  {
    FeedField(c, "retry", "500");
    assert "retry" + ":" + "500" + "\n" == "retry:500\n";
    FiveHundred();
  }

  lemma FiveHundred()
    ensures AllDigits("500") && DecimalValue("500") == RetryMs
  {
    assert AllDigits("5") && DecimalValue("5") == 5 by {
      assert "5"[..0] == "";
    }
    assert AllDigits("50") && DecimalValue("50") == 50 by {
      assert "50"[..1] == "5";
    }
    assert "500"[..2] == "50";
  }

  lemma BlankLine(c: Client)
    requires c.line == [] && !c.afterCR
    ensures Feed(c, "\n") == Dispatch(c)
  {
    assert NoLineBreak("");
    FeedLine(c, "");
    assert "" + "\n" == "\n";
  }

  /** Feeding five pieces one after the other. */
  lemma FeedFive(c: Client, a: string, b: string, d: string, e: string, f: string)
    ensures Feed(c, a + b + d + e + f) == Feed(Feed(Feed(Feed(Feed(c, a), b), d), e), f)
  {
    assert a + b + d + e + f == a + (b + (d + (e + f)));
    FeedConcat(c, a, b + (d + (e + f)));
    FeedConcat(Feed(c, a), b, d + (e + f));
    FeedConcat(Feed(Feed(c, a), b), d, e + f);
    FeedConcat(Feed(Feed(Feed(c, a), b), d), e, f);
  }

  /** An idle reader that reads one frame whose version fits on a line
      dispatches exactly one event: type `version`, the version as data
      (less one leading space, which the format strips), and an empty last
      event ID. It also adopts the 500 ms reconnection time and is idle
      again afterwards, ready for the next frame. */
  lemma ReadFrame(c: Client, version: string)
    requires Idle(c)
    requires NoLineBreak(version)
    ensures Feed(c, Frame(version)) == c.(idBuffer := [], lastEventId := [], retry := Some(RetryMs),
                                          events := c.events + [Event("version", StripSpace(version), [])])
  {
    var v := StripSpace(version);
    var c1 := c.(idBuffer := []);
    var c2 := c1.(eventType := "version");
    var c3 := c2.(data := v + "\n");
    var c4 := c3.(retry := Some(RetryMs));
    var c5 := c4.(lastEventId := [], data := [], eventType := [], events := c.events + [Event("version", v, [])]);
    FrameParts(version);
    IdLine(c);
    EventLine(c1);
    DataLineFromEmpty(c2, version);
    RetryLine(c3);
    BlankLine(c4);
    DispatchVersion(c4, v);
    FeedFive(c, "id:\n", "event:version\n", "data:" + version + "\n", "retry:500\n", "\n");
    assert c5 == c.(idBuffer := [], lastEventId := [], retry := Some(RetryMs),
                    events := c.events + [Event("version", v, [])]);
  }

  lemma DataLineFromEmpty(c: Client, value: string)
    requires c.line == [] && !c.afterCR && c.data == []
    requires NoLineBreak(value)
    ensures Feed(c, "data:" + value + "\n") == c.(data := StripSpace(value) + "\n")
  {
    DataLine(c, value);
    assert c.data + StripSpace(value) + "\n" == StripSpace(value) + "\n";
  }

  lemma FrameParts(version: string)
    ensures Frame(version) == "id:\n" + "event:version\n" + ("data:" + version + "\n") + "retry:500\n" + "\n"
  {
  }

  /** The blank line after a frame's fields dispatches its `version` event. */
  lemma DispatchVersion(c: Client, value: string)
    requires c.eventType == "version" && c.data == value + "\n"
    ensures Dispatch(c) == c.(lastEventId := c.idBuffer, data := [], eventType := [],
                              events := c.events + [Event("version", value, c.idBuffer)])
  {
    assert c.data[..|c.data| - 1] == value;
  }

  /** The version a client sees is the version written exactly when the
      version does not begin with a space. */
  lemma ReadFrameExact(c: Client, version: string)
    requires Idle(c)
    requires NoLineBreak(version)
    ensures var e := Feed(c, Frame(version)).events;
      |e| == |c.events| + 1 && (e[|c.events|].data == version <==> !(|version| > 0 && version[0] == ' '))
  {
    ReadFrame(c, version);
    if |version| > 0 && version[0] == ' ' {
      assert |StripSpace(version)| < |version|;
    }
  }

  /** The frame is not escaped: a version holding a line break reaches the
      client cut at the break. When the text after the break is not itself a
      field the format knows (for `1.2.3\nrc1`, say), an idle client sees
      only the first line as data, and so never the version that was written. */
  lemma LineBreakTruncates(c: Client, first: string, rest: string)
    requires Idle(c)
    requires NoLineBreak(first) && NoLineBreak(rest)
    requires rest != [] && ':' !in rest
    requires rest != "event" && rest != "data" && rest != "id" && rest != "retry"
    ensures Feed(c, Frame(first + "\n" + rest)).events == c.events + [Event("version", StripSpace(first), [])]
    ensures StripSpace(first) != first + "\n" + rest
  {
    var v := StripSpace(first);
    var c1 := c.(idBuffer := []);
    var c2 := c1.(eventType := "version");
    var c3 := c2.(data := v + "\n");
    var c4 := c3.(retry := Some(RetryMs));
    var c5 := Dispatch(c4);
    IdLine(c);
    EventLine(c1);
    DataLineFromEmpty(c2, first);
    UnknownThenRetry(c3, rest);
    BlankLine(c4);
    DispatchVersion(c4, v);
    SplitFrameParts(first, rest);
    FeedChain(c, "id:\n", "event:version\n", "data:" + first + "\n", rest + "\n" + "retry:500\n", "\n",
              c1, c2, c3, c4, c5);
  }

  lemma SplitFrameParts(first: string, rest: string)
    ensures Frame(first + "\n" + rest)
         == "id:\n" + "event:version\n" + ("data:" + first + "\n") + (rest + "\n" + "retry:500\n") + "\n"
  {
  }

  /** A line naming a field the format does not know is ignored. */
  lemma UnknownFieldLine(c: Client, name: string)
    requires c.line == [] && !c.afterCR
    requires NoLineBreak(name) && name != [] && ':' !in name
    requires name != "event" && name != "data" && name != "id" && name != "retry"
    ensures Feed(c, name + "\n") == c
  {
    assert ColonIndex(name) == |name|;
    assert name[..|name|] == name;
    FeedLine(c, name);
  }

  lemma UnknownThenRetry(c: Client, name: string)
    requires c.line == [] && !c.afterCR
    requires NoLineBreak(name) && name != [] && ':' !in name
    requires name != "event" && name != "data" && name != "id" && name != "retry"
    ensures Feed(c, name + "\n" + "retry:500\n") == c.(retry := Some(RetryMs))
  {
    UnknownFieldLine(c, name);
    RetryLine(c);
    FeedConcat(c, name + "\n", "retry:500\n");
  }

  /** Five pieces read one after the other, each taking the reader to the next state. */
  lemma FeedChain(c: Client, a: string, b: string, d: string, e: string, f: string,
                  c1: Client, c2: Client, c3: Client, c4: Client, c5: Client)
    requires Feed(c, a) == c1 && Feed(c1, b) == c2 && Feed(c2, d) == c3
    requires Feed(c3, e) == c4 && Feed(c4, f) == c5
    ensures Feed(c, a + b + d + e + f) == c5
  {
    FeedFive(c, a, b, d, e, f);
  }

  /** Frames are distinguishable: different versions give different frames. */
  lemma FrameInjective(a: string, b: string)
    ensures Frame(a) == Frame(b) ==> a == b
  {
    if Frame(a) == Frame(b) {
      var p := "id:\nevent:version\ndata:";
      var q := "\nretry:500\n\n";
      assert |a| == |b|;
      assert a == Frame(a)[|p|..|p| + |a|];
      assert b == Frame(b)[|p|..|p| + |b|];
    }
  }

  /** The stream of two runs of frames is the concatenation of their streams. */
  lemma {:induction false} StreamConcat(a: seq<string>, b: seq<string>)
    ensures Stream(a + b) == Stream(a) + Stream(b)
    decreases |b|
  {
    if b == [] {
      assert a + b == a;
      assert Stream(a) + Stream(b) == Stream(a);
    } else {
      var b' := b[..|b| - 1];
      assert (a + b)[..|a + b| - 1] == a + b';
      assert (a + b)[|a + b| - 1] == b[|b| - 1];
      StreamConcat(a, b');
    }
  }

  /** Appending a frame to a stream appends its text. */
  lemma StreamAppend(frames: seq<string>, f: string)
    ensures Stream(frames + [f]) == Stream(frames) + f
  {
    StreamConcat(frames, [f]);
    assert [f][..0] == [];
  }

  /** The frames announcing `versions`, in order. */
  function Frames(versions: seq<string>): (frames: seq<string>)
    ensures |frames| == |versions|
    ensures forall i :: 0 <= i < |versions| ==> frames[i] == Frame(versions[i])
  {
    seq(|versions|, i requires 0 <= i < |versions| => Frame(versions[i]))
  }

  /** The events a client should see for `versions`. */
  function VersionEvents(versions: seq<string>): (events: seq<Event>)
    ensures |events| == |versions|
    ensures forall i :: 0 <= i < |versions| ==> events[i] == Event("version", StripSpace(versions[i]), [])
  {
    seq(|versions|, i requires 0 <= i < |versions| => Event("version", StripSpace(versions[i]), []))
  }

  /** An idle client reading a whole stream of frames sees one `version`
      event per frame, in order, and is idle at the end. */
  lemma {:induction false} ReadStream(c: Client, versions: seq<string>)
    requires Idle(c)
    requires forall i :: 0 <= i < |versions| ==> NoLineBreak(versions[i])
    ensures var r := Feed(c, Stream(Frames(versions)));
      Idle(r) && r.events == c.events + VersionEvents(versions)
    decreases |versions|
  {
    if versions == [] {
      assert Stream(Frames(versions)) == [];
      assert c.events + VersionEvents(versions) == c.events;
    } else {
      var init := versions[..|versions| - 1];
      var last := versions[|versions| - 1];
      assert versions == init + [last];
      ReadStream(c, init);
      ReadOneMore(c, init, last);
    }
  }

  /** The inductive step of `ReadStream`: one more frame read after the others. */
  lemma ReadOneMore(c: Client, init: seq<string>, last: string)
    requires NoLineBreak(last)
    requires Idle(Feed(c, Stream(Frames(init))))
    requires Feed(c, Stream(Frames(init))).events == c.events + VersionEvents(init)
    ensures var r := Feed(c, Stream(Frames(init + [last])));
      Idle(r) && r.events == c.events + VersionEvents(init + [last])
  {
    var mid := Feed(c, Stream(Frames(init)));
    FramesAppend(init, last);
    StreamAppend(Frames(init), Frame(last));
    FeedConcat(c, Stream(Frames(init)), Frame(last));
    ReadFrame(mid, last);
  }

  /** Two LFs in a row leave idle any reader that is not just past a CR:
      the first ends whatever line is pending, and the second is a blank
      line that dispatches. */
  lemma TwoLineFeeds(c: Client)
    requires !c.afterCR
    ensures Idle(Feed(c, "\n\n"))
  {
    var c1 := Step(c, '\n');
    LineKeepsPosition(c.(line := []), c.line);
    assert c1.line == [] && !c1.afterCR;
    assert Feed(c, "\n\n") == Feed(c1, "\n");
    assert Feed(c1, "\n") == Step(c1, '\n');
  }

  /** Processing a line touches only the buffers, not the position in the
      stream. */
  lemma LineKeepsPosition(c: Client, line: string)
    ensures ProcessLine(c, line).line == c.line && ProcessLine(c, line).afterCR == c.afterCR
  {
    if line != [] && line[0] != ':' {
      var i := ColonIndex(line);
      var value := if i < |line| then StripSpace(line[i + 1..]) else [];
      assert ProcessLine(c, line) == ProcessField(c, line[..i], value);
    }
  }

  /** Every frame ends in `0` and a blank line, so a reader is idle after
      any frame, whatever state it was in and whatever the version holds. */
  lemma IdleAfterAnyFrame(c: Client, version: string)
    ensures Idle(Feed(c, Frame(version)))
  {
    var pre := "id:\nevent:version\ndata:" + version + "\nretry:50";
    assert Frame(version) == pre + "0" + "\n\n";
    FeedConcat(c, pre, "0");
    FeedConcat(c, pre + "0", "\n\n");
    assert Feed(Feed(c, pre), "0") == Step(Feed(c, pre), '0');
    TwoLineFeeds(Feed(c, pre + "0"));
  }

  /** After at least one frame, a reader is idle whatever it started in. */
  lemma IdleAfterFrames(c: Client, versions: seq<string>)
    requires versions != []
    ensures Idle(Feed(c, Stream(Frames(versions))))
  {
    var init := versions[..|versions| - 1];
    var last := versions[|versions| - 1];
    assert versions == init + [last];
    FramesAppend(init, last);
    StreamAppend(Frames(init), Frame(last));
    FeedConcat(c, Stream(Frames(init)), Frame(last));
    IdleAfterAnyFrame(Feed(c, Stream(Frames(init))), last);
  }

  lemma FramesAppend(init: seq<string>, last: string)
    ensures Frames(init + [last]) == Frames(init) + [Frame(last)]
    ensures VersionEvents(init + [last]) == VersionEvents(init) + [Event("version", StripSpace(last), [])]
  {
  }
}

=== FILE: wrappers.dfy ===
/** The optional value used across the model: a JavaScript value that may be
    `undefined`, or a setting the event stream has not received yet. */
module Wrappers {

  datatype Option<+T> = None | Some(value: T)
}
